=== FILE: README.md ===
# caching-proxy-cli — read-through caching decisions in Dafny

This project models the request-handling core of `caching-proxy-cli`, a
small Express reverse proxy. It forwards a `GET` to an origin server, saves
the origin's body to a local cache, and answers later requests for the same
path from that cache with `X-Cache: HIT`. Every handler is written as a pure
function. It takes the current store, the request, and the outcomes of the
things the real code awaits: the upstream fetch, `mkdir`, and the write
stream. It returns the reply and the new store. For the older server's whole
middleware chain it also returns the upstream paths the request fetched.

- `Http` holds requests, header maps and responses. Header names are stored
  lower-cased, so `X-Cache` overrides an upstream `x-cache`.
- `Paths` models Node's POSIX `path.extname`: trailing `/` is ignored, and
  the extension is the final segment from its last dot. It is empty when
  there is no dot, when the only such dot opens the segment, or when the
  segment is `..`. Under this rule `a.` has extension `.` and `..foo` has
  `.foo`. `Join` glues the non-empty parts with `/`.
- `Storage` models the cache directory as `map<string, seq<byte>>`. The
  in-memory `CacheRecord` is a `map<string, CacheData>`. A write ends in
  `Finished` or in `WriteError`, and an error may leave a partial file.
  `SendFile` serves a stored file the way `res.sendFile` does with Express's
  default options: a file whose final segment starts with `.` is refused,
  and the request ends in a 404 error page.
- `Upstream` models the single axios `GET`, the three-way classification of
  its failure, and the `content-type` lookup. The origin reply it starts
  from is the one axios settles on after following redirects.
- `Proxy` models the current handler of `src/proxy.ts`.
- `StartServer` models the older handler of `src/actions/start-server.ts`
  together with its middleware chain.
- `Middlewares` and `CacheMiddleware` model the HIT middlewares.
- `StringUtils` models `isIntegerString`.
- `Properties` holds lemmas that span both handlers.

`decodeURIComponent` and `mime.extension` are parameters of the model, held
in `Proxy.Platform`. `None` stands for the `URIError` that
`decodeURIComponent` throws. `mime.extension` is given as the text the
template literal renders for its result, so a content type it does not know
gives the file name `index.undefined`. When a handler throws
(a `URIError`, `startsWith` on an absent content type, or
"Yet to implement"), the model gives `Thrown`: nothing is sent and nothing
is cached.

Three behaviours of the code are modelled as written:
- On an upstream error status, the handlers answer with
  `res.sendStatus(status)`. That response carries no `X-Cache` header.
- The decoded URL path is joined under the cache directory as it is. A `..`
  segment in it is not rejected.
- Only `req.path` is requested from the origin. The query string is not
  forwarded.

`isIntegerString` builds a new `/g` regular expression on every call, so no
`lastIndex` carries over from one call to the next. `StringUtils.IsIntegerString`
is therefore a plain function of its argument.

## Model

| member | source | states |
|---|---|---|
| Http.CopyHeaders | src/proxy.ts:64-67 | copying the upstream headers one by one into a `Headers` object yields exactly the lower-cased upstream names, each holding the value of its last occurrence |
| Http.WithCacheStatus | src/actions/start-server.ts:50-55 | the response headers are every upstream header plus `x-cache`; `x-cache` holds the forced status even when the origin sent its own, and every other header passes through with its upstream value |
| Paths.Extname | src/proxy.ts:71 | the extension is empty or a `.` followed by dot-free, separator-free text; it is a suffix of the final segment; it is non-empty exactly when that segment has a dot after its first character and is not `..` |
| Paths.BaseNameIsFinalSegment | src/proxy.ts:71 | the final segment that the extension is taken from is a suffix of the path without its trailing separators, preceded by a `/` unless it is the whole of it |
| Paths.ResolveUpThenDown | src/middlewares.ts:35 | `..` followed by a name, from a directory, ends in the sibling of that directory with that name |
| Paths.SiblingOfAncestor | src/actions/start-server.ts:67 | climbing `../..` into `name` from two levels below a root reaches the same directory as climbing `..` into `name` from one level below it: the root plus `name` |
| Paths.BaseNameOfChild | src/middlewares.ts:35 | `dir/p` has the final segment of `p` whenever `p` is not all separators |
| Paths.BaseNameOfJoin | src/actions/start-server.ts:67 | joining a root in front of a path that is not all separators keeps the path's final segment |
| Paths.ExtnameOfChild | src/middlewares.ts:34-35 | only the final segment decides the extension: `dir/name` has the extension of `name` |
| Paths.ExtnameOfName | src/proxy.ts:82 | a segment `<stem>.<e>` with a dot-free `e` has extension `.<e>` |
| Storage.ApplyWrite | src/proxy.ts:97-104 | a write changes no key but its own; `finish` leaves exactly the body there; an error leaves nothing new or a prefix of the body |
| Storage.SendFile | src/middlewares.ts:38 | the body is the file's bytes with the status and headers already set, exactly when the final segment does not start with `.`; a dot file gets 404 and the error page, keeping the headers set before except the content ones the final handler drops |
| Storage.CacheStatusSurvivesSendFile | src/proxy.ts:107-111 | for any headers set before `sendFile`, an `X-Cache` among them is on the response with its value, whether the file is sent or refused as a dot file |
| Upstream.AxiosGet | src/proxy.ts:39-41 | for the reply axios settles on (a 3xx with a non-empty `location` is followed, never settled on): a 2xx resolves with its status, headers and body; any other status rejects carrying that response; no reply rejects carrying only the request |
| Upstream.FailureStatus | src/proxy.ts:46-60 | an Axios error with a response gives that response's status; one with only a request gives 502; anything else gives 500 |
| Upstream.ContentType | src/proxy.ts:70 | the content type is absent exactly when no header is named `content-type`; otherwise it is the value of the last such header |
| Proxy.CachePath | src/proxy.ts:79-83 | decoding failure yields no path; with an extension the path is the cache directory joined with the decoded URL path; without one it is that directory followed by `index.<mime extension>` |
| Proxy.IndexFileCarriesMimeExtension | src/proxy.ts:79-83 | for an extensionless URL the cache file's own extension is the MIME extension of the content type, and the file is never a dot file |
| Proxy.CacheFileKeepsDecodedFinalSegment | src/proxy.ts:79-83 | for a URL with an extension the cache file ends in the final segment of the decoded path, so it is a dot file exactly when that segment starts with `.` |
| Proxy.WriteThenRespond | src/proxy.ts:97-112 | exactly one of `finish` and `error` answers; on `finish` the client gets the upstream status, the upstream headers with `X-Cache: MISS`, and the bytes written, or a 404 when `sendFile` refuses a dot file; on `error` it gets 500 and only the cache file may have changed |
| Proxy.Handle | src/proxy.ts:35-113 | failures are classified and leave the store untouched; a missing or empty content type gives 502 with the store untouched; an undecodable path throws; a failed `mkdir` gives 500 with no file; a finished write adds exactly the cache entry and answers with its bytes, or with a 404 when the cache file is a dot file |
| Middlewares.CacheRootAtRepositoryRoot | src/middlewares.ts:35 | `../cache` from `src/` is the `cache` directory at the repository root |
| Middlewares.FileCachePathKeepsFinalSegment | src/middlewares.ts:34-35 | for a path with an extension the probed file ends in the path's own final segment |
| Middlewares.SetupCacheMiddleware | src/middlewares.ts:6-26 | HIT exactly when `req.path` is a key of the record; a HIT answers 200 with `X-Cache: HIT`, the stored content type and the stored bytes; a miss calls `next` |
| Middlewares.ReadFileCache | src/middlewares.ts:29-43 | HIT exactly when the path has an extension and the file under the cache root exists; a HIT answers 200 with `X-Cache: HIT` and that file's bytes, or 404 with `X-Cache: HIT` when the path's final segment starts with `.` |
| Middlewares.ExtensionlessAlwaysFallsThrough | src/middlewares.ts:34-42 | an extensionless path reaches `next` whatever the store holds |
| CacheMiddleware.CacheMiddleware | src/middlewares/cache-middleware.ts:5-20 | the key is exactly `req.path`; a present key answers 200 with `X-Cache: HIT` and the stored value and does not call `next`; an absent key calls `next` |
| CacheMiddleware.OnlyTheRequestKeyMatters | src/middlewares/cache-middleware.ts:3-20 | two records that agree on `req.path` give the same answer: the middleware reads only that entry |
| StartServer.Route | src/actions/start-server.ts:58-114 | an extension always takes the file branch; `text/`, `image/` and `audio` take it too; other JSON and XML types are buffered; an absent content type without extension, or any other type, throws |
| StartServer.ExtensionIgnoresContentType | src/actions/start-server.ts:59-62 | with an extension in the path the content type never changes the branch |
| StartServer.FileBranchPath | src/actions/start-server.ts:67 | `../../cache` from `src/actions/` is the directory `readFileCache` reaches by `../cache` from `src/`, so the file branch writes exactly the key the probe looks up |
| StartServer.WriteFile | src/actions/start-server.ts:67-95 | the file branch leaves the record alone; a failed `mkdir` gives 500 with no write; `finish` stores the body at the probed key and answers with it, or with a 404 for a dot file; `error` gives 500 and may leave a prefix of the body at that key |
| StartServer.Handle | src/actions/start-server.ts:22-115 | failures are classified as in the current handler with no state change; the file branch writes the file and answers as `sendFile` does; the buffer branch stores `{contentType, data}` under `req.path` and sends the same bytes with the upstream status; anything else throws with nothing cached |
| StartServer.Serve | src/actions/start-server.ts:22 | no origin contact, and no state change, exactly when a middleware hits, and the HIT is a 200 unless `sendFile` refuses a dot file; otherwise one fetch of `req.path` and the handler's reply and state |
| StartServer.FileMissThenHit | src/actions/start-server.ts:22-95 | for an extensioned path, a first request writes the body and is a MISS with the origin's status and body, and a second is a HIT with the same bytes and no origin contact; for a dot file both answers are 404, though the file is written and the second request stays local |
| StartServer.BufferedMissThenHit | src/actions/start-server.ts:96-111 | a buffered JSON/XML MISS is followed by an in-memory HIT with the stored content type and the same bytes |
| StartServer.FailedWriteLeavesServedPrefix | src/actions/start-server.ts:81-88 | a write error answers 500, but the partly written file stays at the probed key, and the next request for that path is a HIT serving the partial bytes (404 for a dot file) |
| StartServer.ExtensionlessFileEntryNeverServed | src/actions/start-server.ts:61-67 | an extensionless `text/`-like body is written to the store, yet the next request for that path still goes upstream |
| StringUtils.IsIntegerString | src/utils/string.ts:1-6 | true exactly when the string matches `^-?\d+$`: the parse guards never reject a string that matches |
| StringUtils.AcceptsIntegers | src/utils/string.ts:6 | `42`, `-7` and `007` are accepted |
| StringUtils.RejectsNonIntegers | src/utils/string.ts:6 | the empty string, `-`, `--1`, `1.5`, `+3`, ` 7`, `1e3`, `7\n` and `0x1F` are rejected |
| Properties.FailureHandlingAgrees | src/actions/start-server.ts:29-48 | both handlers answer a failed upstream request identically and keep their state |
| Properties.OriginErrorPassedThrough | src/proxy.ts:46-50 | an origin status outside 2xx that axios does not follow as a redirect reaches the client unchanged through either handler, and nothing is cached |
| Properties.OriginUnreachableIsBadGateway | src/proxy.ts:51-55 | an origin that never answers yields 502 through either handler, and nothing is cached |

## Left out

- Express, axios and `fs` plumbing are not modelled. A piped write stream is one `Finished`/`WriteError` outcome. The `existsSync`-then-`mkdir` step is one boolean `dirReady`.
- Errors on the upstream body stream itself are not modelled. In the code they leave the request unanswered.
- The logger calls are not modelled.
- `src/cli.ts`, `src/actions.ts` and `src/app.ts` are not modelled. They only wire arguments and the server together.
- `clearCache` is not part of this model.
- `getReadFileCacheMiddleware`, which `src/proxy.ts` imports, is not part of this model. So the current handler has no HIT path here.
- `decodeURIComponent` and `mime.extension` are abstract parameters.
- `Paths.Join` does not normalise: `//`, `.` and `..` are left as they are. Only the fixed cache roots go through `Paths.Resolve`. Joining a `/`-leading request path gives `//` at the junction: `FileCachePath("/a.css")` is `cache//a.css`, and the extensionless proxy file for `/api` under `c` is `c//api//index.json` where `path.join` gives `c/api/index.json`. The key that is written and the key that is probed are built the same way, so the model stays consistent; two request paths that `path.join` would map to one file (`/a/../b.css` and `/b.css`) are two keys here.
- `Upstream.AxiosGet`: redirect following is not modelled. Its argument is the reply axios settles on; the hops before it, and the error axios raises after too many redirects, are left out.
- `Properties.OriginErrorPassedThrough`: a 3xx with a non-empty `location` header is excluded, because axios follows it instead of passing it on. A 3xx with an empty `location` is covered.
- `StartServer.Serve`: `fetched` records the one `axios.get` call. The extra GETs the adapter sends while following redirects are not counted. A HIT is no longer promised to answer 200: a dot file's HIT is `sendFile`'s 404.
- `Storage.SendFile` applies the dot-file rule to the final segment of the key as written. Express 5's `send` also refuses a path with a dot-leading directory segment, and `path.join` would have removed a final `.` or `..` segment; neither is modelled.
- The absolute location of the checkout is not modelled; paths are relative to the repository root. `Paths.SiblingOfAncestor` holds for every root.
- `Proxy.Handle` and `StartServer.Handle` take one `upstream` outcome, which stands for the single `GET` they await; the count of fetches is stated only for `StartServer.Serve`.
- Headers that Express and `send` add themselves are not modelled. These include the `Content-Type` of `sendStatus`, `res.json` and `sendFile`, plus `Content-Length`, `ETag` and `Last-Modified`.
- Conditional and range handling by `sendFile` (304/206) is not modelled. The headers the final handler adds to its 404 page are not modelled either.
- The `Headers` class trims and validates values; this is not modelled. Array-valued headers are not modelled either.
- `existsSync` also reports directories, but the store here holds only files. In the code, an extensioned path whose `cache/<req.path>` is a directory is a HIT: `X-Cache: HIT` is set, `sendFile` fails with `EISDIR`, and the request ends in the final handler's 404. The model sends that request to the origin instead.
- A rejected async handler yields `Thrown`. What the framework then does is not modelled.
- Concurrent MISS races on the same path and client disconnects are not modelled.
- JavaScript strings are UTF-16 code units. Here they are sequences of Unicode scalar values, which makes no difference for the ASCII names and paths involved.
- The `content-type` lookup uses the exact lower-case name. Node lower-cases incoming header names, so this matches what axios returns.

=== FILE: cache_middleware.dfy ===
/**
 The stand-alone `cacheMiddleware` of `src/middlewares/cache-middleware.ts`,
 which looks `req.path` up in the module-level `cache` record and answers
 with the stored value as JSON.
 */
module CacheMiddleware {
  import opened Http

  /** Either `res.json(value)` with the headers set before it, or `next()`. */
  datatype JsonStep<V> = RespondJson(status: int, headers: HeaderMap, value: V) | Next

  /**
   The lookup key is exactly `req.path`; a present key answers with
   `X-Cache: HIT` and its value and does not call `next()`.
   */
  function CacheMiddleware<V>(cache: map<string, V>, req: Request): (s: JsonStep<V>)
    ensures s.RespondJson? <==> req.path in cache
    ensures s.RespondJson? ==> s.status == 200 && s.value == cache[req.path] && s.headers == map["x-cache" := "HIT"]
  {
    var cacheKey := req.path;
    if cacheKey in cache then
      CacheStatusHeaderKey();
      RespondJson(200, SetHeader(map[], CacheStatusHeader, "HIT"), cache[cacheKey])
    else
      Next
  }

  /** The answer depends on the record only through the entry for `req.path`. */
  lemma OnlyTheRequestKeyMatters<V>(c1: map<string, V>, c2: map<string, V>, req: Request)
    requires req.path in c1 <==> req.path in c2
    requires req.path in c1 ==> c1[req.path] == c2[req.path]
    ensures CacheMiddleware(c1, req) == CacheMiddleware(c2, req)
  {
  }
}

=== FILE: http.dfy ===
/**
 Requests, header maps and responses as the two request handlers and the
 middlewares see them. Header names are stored lower-cased, the way both the
 Fetch `Headers` class and Node's `res.setHeader` key them, so setting
 `X-Cache` replaces an upstream `x-cache`.
 */
module Http {

  type byte = bv8

  /** A client request; only the URL path takes part in caching. */
  datatype Request = Request(path: string)

  /** One `[name, value]` pair of `Object.entries(upstreamResponse.headers)`. */
  datatype Header = Header(name: string, value: string)

  /** Response headers, keyed by lower-cased name. */
  type HeaderMap = map<string, string>

  /**
   What a response carries: the status text of `res.sendStatus`, a string,
   bytes, or the page Express's final handler renders for an error passed to
   `next`.
   */
  datatype Body = StatusText | Text(text: string) | Bytes(data: seq<byte>) | ErrorPage

  datatype Response = Response(status: int, headers: HeaderMap, body: Body)

  /** What a handler did with the request: answered it, or raised an exception. */
  datatype Reply = Sent(response: Response) | Thrown(error: string)

  const CacheStatusHeader: string := "X-Cache"

  /** The body both handlers send with the 500 for a failed write stream. */
  const WriteFailedText: string := "Something went wrong"

  function LowerChar(c: char): char {
    if 'A' <= c <= 'Z' then (c as int + 32) as char else c
  }

  /** ASCII lower-casing of a header name. */
  function Lower(s: string): (r: string)
  {
    seq(|s|, i requires 0 <= i < |s| => LowerChar(s[i]))
  }

  lemma CacheStatusHeaderKey()
    ensures Lower(CacheStatusHeader) == "x-cache"
    ensures Lower("Content-Type") == "content-type"
  {
  }

  /** `headers.set(name, value)`: replaces any header of the same name, whatever its case. */
  function SetHeader(h: HeaderMap, name: string, value: string): HeaderMap {
    h[Lower(name) := value]
  }

  /** Entry `i` is the last one whose name lower-cases to the same key. */
  ghost predicate LastOfName(entries: seq<Header>, i: int)
    requires 0 <= i < |entries|
  {
    forall j :: i < j < |entries| ==> Lower(entries[j].name) != Lower(entries[i].name)
  }

  /**
   The `forEach(headers.set)` loop over the upstream headers: every name
   appears, and each one holds the value of its last occurrence.
   */
  function CopyHeaders(entries: seq<Header>): (h: HeaderMap)
    ensures forall k :: k in h <==> exists i :: 0 <= i < |entries| && Lower(entries[i].name) == k
    ensures forall i :: 0 <= i < |entries| && LastOfName(entries, i) ==>
              Lower(entries[i].name) in h && h[Lower(entries[i].name)] == entries[i].value
  {
    if entries == [] then map[]
    else
      var init := entries[..|entries| - 1];
      var last := entries[|entries| - 1];
      var h0 := CopyHeaders(init);
      var h := SetHeader(h0, last.name, last.value);
      assert forall i :: 0 <= i < |init| ==> init[i] == entries[i];
      CopyHeadersKeysStep(entries, h0, h);
      CopyHeadersValuesStep(entries, h0, h);
      h
  }

  /** One `set` keeps the keys exactly the lower-cased names seen so far. */
  lemma CopyHeadersKeysStep(entries: seq<Header>, h0: HeaderMap, h: HeaderMap)
    requires entries != []
    requires forall k :: k in h0 <==> exists i :: 0 <= i < |entries| - 1 && Lower(entries[i].name) == k
    requires h == SetHeader(h0, entries[|entries| - 1].name, entries[|entries| - 1].value)
    ensures forall k :: k in h <==> exists i :: 0 <= i < |entries| && Lower(entries[i].name) == k
  {
    var last := |entries| - 1;
    forall k | k in h
      ensures exists i :: 0 <= i < |entries| && Lower(entries[i].name) == k
    {
      if k != Lower(entries[last].name) {
        var i :| 0 <= i < |entries| - 1 && Lower(entries[i].name) == k;
      } else {
        assert Lower(entries[last].name) == k;
      }
    }
    forall k | exists i :: 0 <= i < |entries| && Lower(entries[i].name) == k
      ensures k in h
    {
      var i :| 0 <= i < |entries| && Lower(entries[i].name) == k;
      if i < last {
        assert k in h0;
      }
    }
  }

  /** One `set` keeps every key at the value of its last occurrence. */
  lemma CopyHeadersValuesStep(entries: seq<Header>, h0: HeaderMap, h: HeaderMap)
    requires entries != []
    requires forall i :: 0 <= i < |entries| - 1 && LastOfName(entries[..|entries| - 1], i) ==>
               Lower(entries[i].name) in h0 && h0[Lower(entries[i].name)] == entries[i].value
    requires h == SetHeader(h0, entries[|entries| - 1].name, entries[|entries| - 1].value)
    ensures forall i :: 0 <= i < |entries| && LastOfName(entries, i) ==>
              Lower(entries[i].name) in h && h[Lower(entries[i].name)] == entries[i].value
  {
    var init := entries[..|entries| - 1];
    forall i | 0 <= i < |entries| && LastOfName(entries, i)
      ensures Lower(entries[i].name) in h && h[Lower(entries[i].name)] == entries[i].value
    {
      if i < |entries| - 1 {
        var j := |entries| - 1;
        assert Lower(entries[j].name) != Lower(entries[i].name);
        assert LastOfName(init, i) by {
          forall j' | i < j' < |init| ensures Lower(init[j'].name) != Lower(init[i].name) {
            assert init[j'] == entries[j'];
          }
        }
      }
    }
  }

  /**
   The upstream headers with the cache-status header forced to `status`:
   an upstream `X-Cache` of any case is overridden, every other header is
   passed through.
   */
  function WithCacheStatus(entries: seq<Header>, status: string): (h: HeaderMap)
    ensures forall k :: k in h <==> k == "x-cache" || exists i :: 0 <= i < |entries| && Lower(entries[i].name) == k
    ensures "x-cache" in h && h["x-cache"] == status
    ensures forall i :: 0 <= i < |entries| && LastOfName(entries, i) && Lower(entries[i].name) != "x-cache" ==>
              Lower(entries[i].name) in h && h[Lower(entries[i].name)] == entries[i].value
  {
    CacheStatusHeaderKey();
    SetHeader(CopyHeaders(entries), CacheStatusHeader, status)
  }

  /** `res.sendStatus(code)`: the status and its reason phrase, nothing else. */
  function SendStatus(code: int): Response {
    Response(code, map[], StatusText)
  }
}

=== FILE: middlewares.dfy ===
/**
 The two HIT middlewares of `src/middlewares.ts`: the in-memory lookup built
 by `setupCacheMiddleware` and the file probe `readFileCache`. Both only
 read; a miss hands the request on with `next()`.
 */
module Middlewares {
  import opened Http
  import opened Paths
  import opened Storage

  /**
   The repository root as a list of segments. Paths in this model are
   relative to it; `Paths.SiblingOfAncestor` shows that where the checkout
   sits makes no difference to which directory the handlers share.
   */
  const RepositoryRoot: seq<string> := []

  /** `__dirname` of `src/middlewares.ts`. */
  const MiddlewaresDir: seq<string> := RepositoryRoot + ["src"]

  /** `path.join(__dirname, "../cache")`: the cache directory `readFileCache` probes. */
  const CacheRoot: string := Join(Resolve(MiddlewaresDir, ["..", "cache"]))

  /** The cache root is the `cache` directory at the repository root. */
  lemma CacheRootAtRepositoryRoot()
    ensures CacheRoot == Join(RepositoryRoot + ["cache"])
  {
    ResolveUpThenDown(RepositoryRoot, "src", "cache");
  }

  /** `path.join(<cache root>, req.path)`: the file `readFileCache` probes. */
  function FileCachePath(reqPath: string): string {
    Join([CacheRoot, reqPath])
  }

  /** A middleware either answers the request or calls `next()`. */
  datatype Step = Respond(response: Response) | Next

  /**
   `cacheKey in cache` with `cacheKey = req.path`. An Express `req.path`
   starts with `/`, so no inherited property of a plain object can match and
   own-key membership is the whole test.
   */
  function SetupCacheMiddleware(cache: CacheRecord, req: Request): (s: Step)
    ensures s.Respond? <==> req.path in cache
    ensures s.Respond? ==>
              && s.response.status == 200
              && s.response.headers == map["x-cache" := "HIT", "content-type" := cache[req.path].contentType]
              && s.response.body == Bytes(cache[req.path].data)
  {
    if req.path in cache then
      var cached := cache[req.path];
      CacheStatusHeaderKey();
      var headers := SetHeader(SetHeader(map[], CacheStatusHeader, "HIT"), "Content-Type", cached.contentType);
      Respond(Response(200, headers, Bytes(cached.data)))
    else
      Next
  }

  /**
   The probed file ends in the final segment of the request path, so it is
   a dot file exactly when that segment starts with `.`.
   */
  lemma FileCachePathKeepsFinalSegment(reqPath: string)
    requires Extname(reqPath) != ""
    ensures BaseName(FileCachePath(reqPath)) == BaseName(reqPath)
    ensures IsDotFile(FileCachePath(reqPath)) <==> IsDotFile(reqPath)
  {
    ExtensionedIsNotAllSlashes(reqPath);
    BaseNameOfJoin(CacheRoot, reqPath);
  }

  /**
   A HIT exactly when the path has an extension and the file exists. The
   file goes out through `sendFile` with status 200 and `X-Cache: HIT`; when
   the path's final segment starts with `.`, `sendFile` refuses it and the
   HIT ends in a 404.
   */
  function ReadFileCache(store: Store, req: Request): (s: Step)
    ensures s.Respond? <==> Extname(req.path) != "" && FileCachePath(req.path) in store
    ensures Extname(req.path) == "" ==> s == Next
    ensures s.Respond? && !IsDotFile(req.path) ==>
              s.response == Response(200, map["x-cache" := "HIT"], Bytes(store[FileCachePath(req.path)]))
    ensures s.Respond? && IsDotFile(req.path) ==>
              s.response == Response(404, map["x-cache" := "HIT"], ErrorPage)
  {
    var hasExtension := Extname(req.path) != "";
    var cachePath := FileCachePath(req.path);
    if hasExtension && cachePath in store then
      CacheStatusHeaderKey();
      FileCachePathKeepsFinalSegment(req.path);
      var headers := SetHeader(map[], CacheStatusHeader, "HIT");
      assert headers == map["x-cache" := "HIT"];
      CacheStatusSurvivesErrorPage("HIT");
      var r := SendFile(store, cachePath, 200, headers);
      assert IsDotFile(req.path) ==> r == Response(404, headers, ErrorPage);
      assert !IsDotFile(req.path) ==> r == Response(200, headers, Bytes(store[cachePath]));
      Respond(r)
    else
      Next
  }

  /** Extensionless paths fall through whatever the store holds. */
  lemma ExtensionlessAlwaysFallsThrough(s1: Store, s2: Store, req: Request)
    requires Extname(req.path) == ""
    ensures ReadFileCache(s1, req) == ReadFileCache(s2, req) == Next
  {
  }
}

=== FILE: paths.dfy ===
/**
 The two `path` functions the handlers depend on. `Extname` follows the
 POSIX `path.extname` of Node: trailing separators are ignored, the
 extension is the final segment's suffix from its last dot, and it is empty
 when there is no dot, when the only such dot opens the segment, or when the
 segment is `..`. `Join` glues the non-empty parts with `/` and performs no
 further normalisation.
 */
module Paths {

  /** The index of the last `c` in `s`, or -1 when `s` has none. */
  function LastIndexOf(s: string, c: char): (i: int)
    ensures -1 <= i < |s|
    ensures i >= 0 ==> s[i] == c
    ensures forall j :: i < j < |s| ==> s[j] != c
  {
    if s == [] then -1
    else if s[|s| - 1] == c then |s| - 1
    else LastIndexOf(s[..|s| - 1], c)
  }

  /** `p` without its trailing `/` characters. */
  function TrimTrailingSlashes(p: string): (r: string)
    ensures r <= p
    ensures r == [] || r[|r| - 1] != '/'
    ensures forall j :: |r| <= j < |p| ==> p[j] == '/'
  {
    if p != [] && p[|p| - 1] == '/' then TrimTrailingSlashes(p[..|p| - 1]) else p
  }

  /** The last segment of `p`, once trailing separators are dropped. */
  function BaseName(p: string): (r: string)
    ensures '/' !in r
  {
    var t := TrimTrailingSlashes(p);
    t[LastIndexOf(t, '/') + 1..]
  }

  /**
   The base name is the whole final segment: a suffix of `p` without its
   trailing separators, preceded by a `/` unless it is all of it.
   */
  lemma BaseNameIsFinalSegment(p: string)
    ensures var t, r := TrimTrailingSlashes(p), BaseName(p);
            && |r| <= |t| && r == t[|t| - |r|..]
            && (|r| == |t| || t[|t| - |r| - 1] == '/')
  {
    var t := TrimTrailingSlashes(p);
    var i := LastIndexOf(t, '/');
    assert BaseName(p) == t[i + 1..];
    assert |t| - |BaseName(p)| - 1 == i;
  }

  /** Node's `path.extname(p)`. */
  function Extname(p: string): (r: string)
    ensures r == [] || (r[0] == '.' && '/' !in r && '.' !in r[1..])
    ensures |r| <= |BaseName(p)| && r == BaseName(p)[|BaseName(p)| - |r|..]
    ensures r != [] <==>
              BaseName(p) != ".." && exists d :: 0 < d < |BaseName(p)| && BaseName(p)[d] == '.'
  {
    var seg := BaseName(p);
    var d := LastIndexOf(seg, '.');
    if d <= 0 || seg == ".." then "" else seg[d..]
  }

  /** `path.join(parts...)`, without normalisation: empty parts are skipped. */
  function Join(parts: seq<string>): string {
    if parts == [] then ""
    else
      var init := Join(parts[..|parts| - 1]);
      var last := parts[|parts| - 1];
      if last == "" then init
      else if init == "" then last
      else init + "/" + last
  }

  /**
   The directory `dir`, as a list of segments, after walking the relative
   segments `rel` the way `path.join` normalises them: `..` drops the last
   segment (and stays put at the top), `.` and empty segments are skipped,
   anything else is entered.
   */
  function Resolve(dir: seq<string>, rel: seq<string>): seq<string>
    decreases |rel|
  {
    if rel == [] then dir
    else if rel[0] == ".." then Resolve(if dir == [] then [] else dir[..|dir| - 1], rel[1..])
    else if rel[0] == "." || rel[0] == "" then Resolve(dir, rel[1..])
    else Resolve(dir + [rel[0]], rel[1..])
  }

  /** Leaving a directory by `..` and entering `name` ends where entering `name` from its parent does. */
  lemma ResolveUpThenDown(parent: seq<string>, child: string, name: string)
    requires name != ".." && name != "." && name != ""
    ensures Resolve(parent + [child], ["..", name]) == parent + [name]
  {
    var dir := parent + [child];
    var up := ["..", name];
    assert up[0] == ".." && up[1..] == [name];
    assert dir[..|dir| - 1] == parent;
    assert Resolve(dir, up) == Resolve(parent, [name]);
    assert [name][0] == name && [name][1..] == [];
    assert Resolve(parent, [name]) == Resolve(parent + [name], []);
  }

  /**
   A module two levels below `root` that climbs `../..` into `name` reaches
   the same directory as a module one level below that climbs `..`: the
   whole of `root` is kept and only `name` is added.
   */
  lemma {:induction false} SiblingOfAncestor(root: seq<string>, a: string, b: string, name: string)
    requires name != ".." && name != "." && name != ""
    ensures Resolve(root + [a, b], ["..", "..", name]) == Resolve(root + [a], ["..", name]) == root + [name]
  {
    var rel := ["..", "..", name];
    assert rel[0] == "..";
    assert (root + [a, b])[..|root| + 1] == root + [a];
    assert rel[1..] == ["..", name];
    ResolveUpThenDown(root, a, name);
  }

  lemma JoinEmptyLast(parts: seq<string>)
    ensures Join(parts + [""]) == Join(parts)
  {
    assert (parts + [""])[..|parts|] == parts;
  }

  lemma JoinAppend(parts: seq<string>, s: string)
    requires Join(parts) != "" && s != ""
    ensures Join(parts + [s]) == Join(parts) + "/" + s
  {
    assert (parts + [s])[..|parts|] == parts;
  }

  /** Appending `c` and then a run free of `c` leaves the last `c` at the join point. */
  lemma {:induction false} LastIndexOfAfter(a: string, c: char, b: string)
    requires c !in b
    ensures LastIndexOf(a + [c] + b, c) == |a|
    decreases |b|
  {
    if b == [] {
      assert a + [c] + b == a + [c];
    } else {
      var s := a + [c] + b;
      assert s[|s| - 1] == b[|b| - 1];
      assert s[..|s| - 1] == a + [c] + b[..|b| - 1];
      LastIndexOfAfter(a, c, b[..|b| - 1]);
    }
  }

  /** A string free of `c` has no last `c`. */
  lemma {:induction false} LastIndexOfAbsent(s: string, c: char)
    requires c !in s
    ensures LastIndexOf(s, c) == -1
    decreases |s|
  {
    if s != [] {
      LastIndexOfAbsent(s[..|s| - 1], c);
    }
  }

  /**
   The extension of `dir + "/" + name` is that of `name` alone when `name`
   is one non-empty segment: what comes before the last separator does not
   matter.
   */
  lemma ExtnameOfChild(dir: string, name: string)
    requires name != [] && '/' !in name
    ensures BaseName(dir + "/" + name) == name
    ensures Extname(dir + "/" + name) == Extname(name)
  {
    var p := dir + "/" + name;
    assert p[|p| - 1] == name[|name| - 1];
    assert TrimTrailingSlashes(p) == p;
    assert TrimTrailingSlashes(name) == name;
    assert p == dir + ['/'] + name;
    LastIndexOfAfter(dir, '/', name);
    LastIndexOfAbsent(name, '/');
    assert p[|dir| + 1..] == name;
    assert BaseName(p) == name;
    assert BaseName(name) == name;
  }

  /** Gluing `a`, `c` and `b` introduces no character other than theirs. */
  lemma NotInConcat(a: string, c: char, b: string, x: char)
    requires x !in a && x != c && x !in b
    ensures x !in a + [c] + b
  {
    var s := a + [c] + b;
    forall j | 0 <= j < |s| ensures s[j] != x {
      if j < |a| { assert s[j] == a[j]; }
      else if j > |a| { assert s[j] == b[j - |a| - 1]; }
    }
  }

  /**
   A single segment `<stem>.<e>`, with `e` free of dots and separators and a
   non-empty stem other than `.`, has extension `.<e>`.
   */
  lemma ExtnameOfName(stem: string, e: string)
    requires stem != "" && stem != "." && '/' !in stem
    requires '.' !in e && '/' !in e
    ensures Extname(stem + "." + e) == "." + e
  {
    var name := stem + ['.'] + e;
    assert stem + "." + e == name;
    NotInConcat(stem, '.', e, '/');
    assert TrimTrailingSlashes(name) == name by {
      assert name[|name| - 1] in name;
    }
    LastIndexOfAbsent(name, '/');
    assert BaseName(name) == name;
    LastIndexOfAfter(stem, '.', e);
    assert name != ".." by {
      if |name| == 2 {
        assert name[0] == stem[0] && |stem| == 1;
      }
    }
    assert name[|stem|..] == "." + e;
  }

  /** Appending `a` in front of a path that is not all separators keeps its trailing separators apart. */
  lemma {:induction false} TrimTrailingSlashesAppend(a: string, p: string)
    requires TrimTrailingSlashes(p) != []
    ensures TrimTrailingSlashes(a + p) == a + TrimTrailingSlashes(p)
    decreases |p|
  {
    var q := a + p;
    assert q[|q| - 1] == p[|p| - 1];
    if p[|p| - 1] == '/' {
      assert q[..|q| - 1] == a + p[..|p| - 1];
      TrimTrailingSlashesAppend(a, p[..|p| - 1]);
    }
  }

  /** The last `c` of `a + t` lies in `t` when `t` has one, and in `a` otherwise. */
  lemma {:induction false} LastIndexOfAppend(a: string, t: string, c: char)
    ensures LastIndexOf(a + t, c) == if LastIndexOf(t, c) >= 0 then |a| + LastIndexOf(t, c) else LastIndexOf(a, c)
    decreases |t|
  {
    var q := a + t;
    if t == [] {
      assert q == a;
    } else {
      assert q[|q| - 1] == t[|t| - 1];
      if t[|t| - 1] != c {
        assert q[..|q| - 1] == a + t[..|t| - 1];
        LastIndexOfAppend(a, t[..|t| - 1], c);
      }
    }
  }

  /**
   Only the final segment counts: `dir/p` has the base name of `p` whenever
   `p` is not all separators.
   */
  lemma BaseNameOfChild(dir: string, p: string)
    requires TrimTrailingSlashes(p) != []
    ensures BaseName(dir + "/" + p) == BaseName(p)
  {
    var a := dir + "/";
    assert dir + "/" + p == a + p;
    TrimTrailingSlashesAppend(a, p);
    AfterLastSlash(a, TrimTrailingSlashes(p));
  }

  /** What follows the last `/` of `a + t`, for `a` ending in `/`, is what follows the last `/` of `t`. */
  lemma AfterLastSlash(a: string, t: string)
    requires a != [] && a[|a| - 1] == '/'
    ensures (a + t)[LastIndexOf(a + t, '/') + 1..] == t[LastIndexOf(t, '/') + 1..]
  {
    LastIndexOfAppend(a, t, '/');
    var k := LastIndexOf(t, '/');
    if k < 0 {
      assert LastIndexOf(a, '/') == |a| - 1;
      assert (a + t)[|a|..] == t;
    } else {
      assert (a + t)[|a| + k + 1..] == t[k + 1..];
    }
  }

  /** Joining a root in front of a path that is not all separators keeps its final segment. */
  lemma BaseNameOfJoin(root: string, p: string)
    requires TrimTrailingSlashes(p) != []
    ensures BaseName(Join([root, p])) == BaseName(p)
  {
    assert p != [];
    assert [root, p][..1] == [root] && [root][..0] == [];
    assert Join([root]) == root;
    if root == "" {
      assert Join([root, p]) == p;
    } else {
      assert Join([root, p]) == root + "/" + p;
      BaseNameOfChild(root, p);
    }
  }

  /** A path with an extension is not all separators. */
  lemma ExtensionedIsNotAllSlashes(p: string)
    requires Extname(p) != ""
    ensures TrimTrailingSlashes(p) != []
  {
    BaseNameIsFinalSegment(p);
  }

  /** A path whose final segment starts with `.`. */
  predicate IsDotFile(path: string) {
    var b := BaseName(path);
    b != [] && b[0] == '.'
  }
}

=== FILE: properties.dfy ===
/**
 Facts relating the two handlers to each other and to the origin's
 behaviour.
 */
module Properties {
  import opened Wrappers
  import opened Http
  import opened Paths
  import opened Storage
  import opened Upstream
  import Proxy
  import StartServer

  /**
   Both handlers answer a failed upstream request identically and leave
   their state as it was.
   */
  lemma FailureHandlingAgrees(p: Proxy.Platform, cacheDirectory: string, s: StartServer.State, req: Request,
                              e: UpstreamError, dirReady: bool, write: WriteOutcome)
    ensures Proxy.Handle(p, cacheDirectory, s.store, req, Failed(e), dirReady, write).reply
         == StartServer.Handle(s, req, Failed(e), dirReady, write).reply
    ensures Proxy.Handle(p, cacheDirectory, s.store, req, Failed(e), dirReady, write).store == s.store
    ensures StartServer.Handle(s, req, Failed(e), dirReady, write).state == s
  {
  }

  /**
   An origin error status reaches the client unchanged, through either
   handler, and nothing is cached. A 3xx with a non-empty `location` header is not such
   a status: axios follows it.
   */
  lemma OriginErrorPassedThrough(p: Proxy.Platform, cacheDirectory: string, s: StartServer.State, req: Request,
                                 status: int, entries: seq<Header>, body: seq<byte>, dirReady: bool, write: WriteOutcome)
    requires !(200 <= status < 300)
    requires !IsFollowedRedirect(status, entries)
    ensures var x := Proxy.Handle(p, cacheDirectory, s.store, req, AxiosGet(Replied(status, entries, body)), dirReady, write);
            x.reply == Sent(SendStatus(status)) && x.store == s.store
    ensures var y := StartServer.Handle(s, req, AxiosGet(Replied(status, entries, body)), dirReady, write);
            y.reply == Sent(SendStatus(status)) && y.state == s
  {
  }

  /** An origin that never answers yields 502 and no cache entry. */
  lemma OriginUnreachableIsBadGateway(p: Proxy.Platform, cacheDirectory: string, s: StartServer.State, req: Request,
                                      dirReady: bool, write: WriteOutcome)
    ensures var x := Proxy.Handle(p, cacheDirectory, s.store, req, AxiosGet(NoReply), dirReady, write);
            x.reply == Sent(SendStatus(502)) && x.store == s.store
    ensures var y := StartServer.Handle(s, req, AxiosGet(NoReply), dirReady, write);
            y.reply == Sent(SendStatus(502)) && y.state == s
  {
  }

}

=== FILE: proxy.dfy ===
/**
 The current request handler, `cacheProxy.get("*", ...)` inside
 `configureAndStartCacheProxy`: fetch from the origin, check the content
 type, derive the cache file path, write the body there and only then
 answer the client from that file.
 */
module Proxy {
  import opened Wrappers
  import opened Http
  import opened Paths
  import opened Storage
  import opened Upstream

  /**
   The library functions the handler calls and this model leaves abstract:
   `decodeURIComponent` (`None` for the `URIError` it throws on a malformed
   escape) and `mime.extension` as the text a template literal renders for
   its result, which is `undefined` for a type it does not know.
   */
  datatype Platform = Platform(decodeUri: string -> Option<string>, mimeExtension: string -> string)

  /** What the handler did: its reply and the store afterwards. */
  datatype ProxyExchange = ProxyExchange(reply: Reply, store: Store)

  /** The file name synthesised for a path without extension, as the third `path.join` argument. */
  function IndexFile(p: Platform, contentType: string): string {
    "/index." + p.mimeExtension(contentType)
  }

  /**
   The cache file for `reqPath`: the decoded URL path under the cache
   directory, plus `index.<ext>` when `reqPath` has no extension. `None`
   when decoding throws.
   */
  function CachePath(p: Platform, cacheDirectory: string, reqPath: string, contentType: string): (r: Option<string>)
    ensures r.None? <==> p.decodeUri(reqPath).None?
    ensures r.Some? && Extname(reqPath) != "" ==> r.value == Join([cacheDirectory, p.decodeUri(reqPath).value])
    ensures r.Some? && Extname(reqPath) == "" && Join([cacheDirectory, p.decodeUri(reqPath).value]) != "" ==>
              r.value == Join([cacheDirectory, p.decodeUri(reqPath).value]) + "/" + IndexFile(p, contentType)
  {
    match p.decodeUri(reqPath)
    case None => None
    case Some(decoded) =>
      var dir := [cacheDirectory, decoded];
      var file := if Extname(reqPath) == "" then IndexFile(p, contentType) else "";
      JoinEmptyLast(dir);
      assert file != "" && Join(dir) != "" ==> Join(dir + [file]) == Join(dir) + "/" + file by {
        if file != "" && Join(dir) != "" {
          JoinAppend(dir, file);
        }
      }
      Some(Join(dir + [file]))
  }

  /**
   For a path without extension the cache file is `index.<ext>`, so its own
   extension is the one `mime.extension` gave for the content type.
   */
  lemma IndexFileCarriesMimeExtension(p: Platform, cacheDirectory: string, reqPath: string, contentType: string)
    requires Extname(reqPath) == ""
    requires p.decodeUri(reqPath).Some?
    requires Join([cacheDirectory, p.decodeUri(reqPath).value]) != ""
    requires '.' !in p.mimeExtension(contentType) && '/' !in p.mimeExtension(contentType)
    ensures CachePath(p, cacheDirectory, reqPath, contentType).Some?
    ensures Extname(CachePath(p, cacheDirectory, reqPath, contentType).value)
              == "." + p.mimeExtension(contentType)
    ensures !IsDotFile(CachePath(p, cacheDirectory, reqPath, contentType).value)
  {
    var e := p.mimeExtension(contentType);
    var dir := Join([cacheDirectory, p.decodeUri(reqPath).value]);
    assert dir + "/" + IndexFile(p, contentType) == (dir + "/") + "/" + ("index." + e);
    assert "index." + e == "index" + "." + e;
    ExtnameOfChild(dir + "/", "index." + e);
    ExtnameOfName("index", e);
  }

  /**
   For a path with an extension the cache file ends in the final segment of
   the decoded path, so a request for `/.env.json` is written to a dot file
   that `sendFile` then refuses.
   */
  lemma CacheFileKeepsDecodedFinalSegment(p: Platform, cacheDirectory: string, reqPath: string, contentType: string)
    requires Extname(reqPath) != ""
    requires p.decodeUri(reqPath).Some? && TrimTrailingSlashes(p.decodeUri(reqPath).value) != []
    ensures CachePath(p, cacheDirectory, reqPath, contentType).Some?
    ensures BaseName(CachePath(p, cacheDirectory, reqPath, contentType).value) == BaseName(p.decodeUri(reqPath).value)
    ensures IsDotFile(CachePath(p, cacheDirectory, reqPath, contentType).value) <==> IsDotFile(p.decodeUri(reqPath).value)
  {
    BaseNameOfJoin(cacheDirectory, p.decodeUri(reqPath).value);
  }

  /** `!contentType`: absent or empty. */
  predicate MissingContentType(ct: Option<string>) {
    ct.None? || ct.value == ""
  }

  /** The cache path of a fetched response that has a content type, `None` otherwise. */
  function CacheTarget(p: Platform, cacheDirectory: string, req: Request, upstream: UpstreamOutcome): Option<string> {
    if upstream.Fetched? && !MissingContentType(ContentType(upstream.headers)) then
      CachePath(p, cacheDirectory, req.path, ContentType(upstream.headers).value)
    else None
  }

  /**
   The `finish`/`error` listeners of the write stream: exactly one of them
   answers. On `finish` the client gets the upstream status, the upstream
   headers with `X-Cache: MISS`, and the file just written, unless
   `sendFile` refuses a dot file and the answer is a 404; on `error` a 500.
   */
  function WriteThenRespond(store: Store, path: string, status: int, entries: seq<Header>,
                            body: seq<byte>, write: WriteOutcome): (r: (Reply, Store))
    ensures r.0.Sent? && (r.0.response.body.Bytes? <==> write.Finished? && !IsDotFile(path))
    ensures write.Finished? ==> r.1 == store[path := body]
    ensures write.Finished? && !IsDotFile(path) ==>
              r.0.response == Response(status, WithCacheStatus(entries, "MISS"), Bytes(body))
    ensures write.Finished? && IsDotFile(path) ==>
              r.0.response == Response(404, WithCacheStatus(entries, "MISS") - ErrorDroppedHeaders, ErrorPage)
    ensures write.WriteError? ==>
              && r.0.response == Response(500, map[], Text(WriteFailedText))
              && AgreesExcept(store, r.1, path)
  {
    var store' := ApplyWrite(store, path, body, write);
    if write.Finished? then
      // `sendFile(cacheFilePath)` serves what was just written
      (Sent(SendFile(store', path, status, WithCacheStatus(entries, "MISS"))), store')
    else
      (Sent(Response(500, map[], Text(WriteFailedText))), store')
  }

  /**
   One request through the handler. `dirReady` says whether the parent
   directory of the cache file exists or `mkdir(..., { recursive: true })`
   created it; `write` is how the piped write stream ended. The handler
   awaits one axios `GET` for `req.path` and never retries, so a single
   `upstream` outcome stands for everything the origin said.
   */
  function Handle(p: Platform, cacheDirectory: string, store: Store, req: Request,
                  upstream: UpstreamOutcome, dirReady: bool, write: WriteOutcome): (x: ProxyExchange)
    // a failed upstream request is classified and nothing is stored
    ensures upstream.Failed? ==> x.reply == Sent(SendStatus(FailureStatus(upstream.error))) && x.store == store
    // no content type: 502 before any path, directory or file work
    ensures upstream.Fetched? && MissingContentType(ContentType(upstream.headers)) ==>
              x.reply == Sent(SendStatus(502)) && x.store == store
    // the path cannot be decoded: the handler throws, nothing is stored
    ensures upstream.Fetched? && !MissingContentType(ContentType(upstream.headers))
            && CacheTarget(p, cacheDirectory, req, upstream).None? ==>
              x.reply.Thrown? && x.store == store
    // the directory cannot be created: 500 and no file
    ensures CacheTarget(p, cacheDirectory, req, upstream).Some? && !dirReady ==>
              x.reply == Sent(SendStatus(500)) && x.store == store
    // the write finished: exactly the cache file is added, and the client gets its bytes
    ensures CacheTarget(p, cacheDirectory, req, upstream).Some? && dirReady && write.Finished? ==>
              x.store == store[CacheTarget(p, cacheDirectory, req, upstream).value := upstream.body]
    ensures CacheTarget(p, cacheDirectory, req, upstream).Some? && dirReady && write.Finished?
            && !IsDotFile(CacheTarget(p, cacheDirectory, req, upstream).value) ==>
              x.reply == Sent(Response(upstream.status, WithCacheStatus(upstream.headers, "MISS"), Bytes(upstream.body)))
    // ... unless `sendFile` refuses the dot file it was written to
    ensures CacheTarget(p, cacheDirectory, req, upstream).Some? && dirReady && write.Finished?
            && IsDotFile(CacheTarget(p, cacheDirectory, req, upstream).value) ==>
              x.reply == Sent(Response(404, WithCacheStatus(upstream.headers, "MISS") - ErrorDroppedHeaders, ErrorPage))
    // the write failed: 500, and nothing but the cache file may have changed
    ensures CacheTarget(p, cacheDirectory, req, upstream).Some? && dirReady && write.WriteError? ==>
              && x.reply == Sent(Response(500, map[], Text(WriteFailedText)))
              && AgreesExcept(store, x.store, CacheTarget(p, cacheDirectory, req, upstream).value)
  {
    match upstream
    case Failed(e) => ProxyExchange(Sent(FailureResponse(e)), store)
    case Fetched(status, entries, body) =>
      var contentType := ContentType(entries);
      if MissingContentType(contentType) then ProxyExchange(Sent(SendStatus(502)), store)
      else match CachePath(p, cacheDirectory, req.path, contentType.value)
        case None => ProxyExchange(Thrown("URIError"), store)
        case Some(path) =>
          if !dirReady then ProxyExchange(Sent(SendStatus(500)), store)
          else
            var (reply, store') := WriteThenRespond(store, path, status, entries, body, write);
            ProxyExchange(reply, store')
  }
}

=== FILE: start_server.dfy ===
/**
 The older handler, `app.get("*", cacheMiddleware, readFileCache, ...)` in
 `startServer`: after both HIT middlewares miss it fetches from the origin
 and, by extension and content type, either writes the body to the file
 store or buffers it into the in-memory cache.
 */
module StartServer {
  import opened Wrappers
  import opened Http
  import opened Paths
  import opened Storage
  import opened Upstream
  import opened Middlewares

  /** The server's mutable state: the in-memory record and the cache directory. */
  datatype State = State(cache: CacheRecord, store: Store)

  /** What the route handler did: its reply and the state afterwards. */
  datatype HandlerResult = HandlerResult(reply: Reply, state: State)

  /** What the whole chain did for one request: the reply, the state afterwards, and the upstream paths it fetched. */
  datatype ServerExchange = ServerExchange(reply: Reply, state: State, fetched: seq<string>)

  /** Where a fetched response goes. */
  datatype Branch = FileBranch | BufferBranch | Unsupported(error: string)

  predicate StartsWith(s: string, prefix: string) {
    prefix <= s
  }

  predicate IsFileContentType(ct: string) {
    StartsWith(ct, "text/") || StartsWith(ct, "image/") || StartsWith(ct, "audio")
  }

  predicate IsBufferedContentType(ct: string) {
    StartsWith(ct, "application/json") || StartsWith(ct, "application/xml")
  }

  /**
   The branch condition. `contentType.startsWith` on an absent content type
   throws a `TypeError`, but only when the path has no extension, since the
   `||` stops at an extension.
   */
  function Route(reqPath: string, contentType: Option<string>): (b: Branch)
    ensures Extname(reqPath) != "" ==> b == FileBranch
    ensures contentType.Some? && IsFileContentType(contentType.value) ==> b == FileBranch
    ensures b == BufferBranch <==>
              Extname(reqPath) == "" && contentType.Some?
              && !IsFileContentType(contentType.value) && IsBufferedContentType(contentType.value)
    ensures b.Unsupported? <==>
              Extname(reqPath) == "" && (contentType.None? ||
                (!IsFileContentType(contentType.value) && !IsBufferedContentType(contentType.value)))
  {
    if Extname(reqPath) != "" then FileBranch
    else if contentType.None? then Unsupported("TypeError")
    else if IsFileContentType(contentType.value) then FileBranch
    else if IsBufferedContentType(contentType.value) then BufferBranch
    else Unsupported("Yet to implement")
  }

  /** With an extension in the path the content type is never consulted. */
  lemma ExtensionIgnoresContentType(reqPath: string, c1: Option<string>, c2: Option<string>)
    requires Extname(reqPath) != ""
    ensures Route(reqPath, c1) == Route(reqPath, c2) == FileBranch
  {
  }

  /** `__dirname` of `src/actions/start-server.ts`. */
  const ActionsDir: seq<string> := RepositoryRoot + ["src", "actions"]

  /**
   `path.join(__dirname, "../../cache", req.path)`. Climbing two levels from
   `src/actions` reaches the directory `readFileCache` reaches climbing one
   from `src`, so the file written here is the one the probe looks for.
   */
  function FileBranchPath(reqPath: string): (path: string)
    ensures path == FileCachePath(reqPath)
  {
    SiblingOfAncestor(RepositoryRoot, "src", "actions", "cache");
    Join([Join(Resolve(ActionsDir, ["..", "..", "cache"])), reqPath])
  }

  /**
   The file branch: `mkdir` when needed, then the write stream, then the
   response from the written file through `sendFile`, which refuses a file
   whose final segment starts with `.`.
   */
  function WriteFile(s: State, req: Request, status: int, headers: HeaderMap, body: seq<byte>,
                     dirReady: bool, write: WriteOutcome): (r: (Reply, State))
    ensures r.1.cache == s.cache
    ensures !dirReady ==> r == (Sent(SendStatus(500)), s)
    ensures dirReady && write.Finished? ==> r.1.store == s.store[FileCachePath(req.path) := body]
    ensures dirReady && write.Finished? && !IsDotFile(FileCachePath(req.path)) ==>
              r.0 == Sent(Response(status, headers, Bytes(body)))
    ensures dirReady && write.Finished? && IsDotFile(FileCachePath(req.path)) ==>
              r.0 == Sent(Response(404, headers - ErrorDroppedHeaders, ErrorPage))
    ensures dirReady && write.WriteError? ==>
              && r.0 == Sent(Response(500, map[], Text(WriteFailedText)))
              && AgreesExcept(s.store, r.1.store, FileCachePath(req.path))
              && (write.flushed.Some? ==>
                    && FileCachePath(req.path) in r.1.store
                    && r.1.store[FileCachePath(req.path)] == body[..Min(write.flushed.value, |body|)])
  {
    var path := FileBranchPath(req.path);
    if !dirReady then (Sent(SendStatus(500)), s)
    else
      var store' := ApplyWrite(s.store, path, body, write);
      if write.Finished? then
        (Sent(SendFile(store', path, status, headers)), s.(store := store'))
      else
        (Sent(Response(500, map[], Text(WriteFailedText))), s.(store := store'))
  }

  /**
   The route handler itself, reached once both middlewares have called
   `next()`. It awaits one axios `GET` for `req.path` and never retries, so a
   single `upstream` outcome stands for everything the origin said.
   */
  function Handle(s: State, req: Request, upstream: UpstreamOutcome, dirReady: bool, write: WriteOutcome): (x: HandlerResult)
    // failure classification as in the current handler; nothing cached
    ensures upstream.Failed? ==> x.reply == Sent(SendStatus(FailureStatus(upstream.error))) && x.state == s
    // the file branch never touches the in-memory record
    ensures upstream.Fetched? && Route(req.path, ContentType(upstream.headers)) == FileBranch ==>
              && x.state.cache == s.cache
              && (!dirReady ==> x.reply == Sent(SendStatus(500)) && x.state == s)
              && (dirReady && write.Finished? ==> x.state.store == s.store[FileCachePath(req.path) := upstream.body])
              && (dirReady && write.Finished? && !IsDotFile(FileCachePath(req.path)) ==>
                    x.reply == Sent(Response(upstream.status, WithCacheStatus(upstream.headers, "MISS"), Bytes(upstream.body))))
              && (dirReady && write.Finished? && IsDotFile(FileCachePath(req.path)) ==>
                    x.reply == Sent(Response(404, WithCacheStatus(upstream.headers, "MISS") - ErrorDroppedHeaders, ErrorPage)))
              && (dirReady && write.WriteError? ==>
                    && x.reply == Sent(Response(500, map[], Text(WriteFailedText)))
                    && AgreesExcept(s.store, x.state.store, FileCachePath(req.path)))
    // JSON and XML bodies are buffered whole into the record under `req.path` and sent back
    ensures upstream.Fetched? && Route(req.path, ContentType(upstream.headers)) == BufferBranch ==>
              && x.state == State(s.cache[req.path := CacheData(ContentType(upstream.headers).value, upstream.body)], s.store)
              && x.reply == Sent(Response(upstream.status, WithCacheStatus(upstream.headers, "MISS"), Bytes(upstream.body)))
    // anything else throws: nothing cached, nothing sent
    ensures upstream.Fetched? && Route(req.path, ContentType(upstream.headers)).Unsupported? ==>
              x.reply.Thrown? && x.state == s
  {
    match upstream
    case Failed(e) => HandlerResult(Sent(FailureResponse(e)), s)
    case Fetched(status, entries, body) =>
      var headers := WithCacheStatus(entries, "MISS");
      var contentType := ContentType(entries);
      match Route(req.path, contentType)
      case FileBranch =>
        var (reply, s') := WriteFile(s, req, status, headers, body, dirReady, write);
        HandlerResult(reply, s')
      case BufferBranch =>
        var data := body;
        var cache' := s.cache[req.path := CacheData(contentType.value, data)];
        HandlerResult(Sent(Response(status, headers, Bytes(data))), s.(cache := cache'))
      case Unsupported(error) => HandlerResult(Thrown(error), s)
  }

  /** The whole chain: `cacheMiddleware`, then `readFileCache`, then the handler. */
  function Serve(s: State, req: Request, upstream: UpstreamOutcome, dirReady: bool, write: WriteOutcome): (x: ServerExchange)
    // a HIT in either middleware contacts no origin and changes nothing
    ensures x.fetched == [] <==> req.path in s.cache || (Extname(req.path) != "" && FileCachePath(req.path) in s.store)
    ensures x.fetched == [] ==>
              && x.state == s && x.reply.Sent?
              && (x.reply.response.status == 200 || (x.reply.response.status == 404 && IsDotFile(req.path)))
    ensures req.path in s.cache ==>
              x.reply == Sent(Response(200, map["x-cache" := "HIT", "content-type" := s.cache[req.path].contentType],
                                       Bytes(s.cache[req.path].data)))
    ensures req.path !in s.cache && Extname(req.path) != "" && FileCachePath(req.path) in s.store && !IsDotFile(req.path) ==>
              x.reply == Sent(Response(200, map["x-cache" := "HIT"], Bytes(s.store[FileCachePath(req.path)])))
    // a file HIT on a dot file is refused by `sendFile`
    ensures req.path !in s.cache && Extname(req.path) != "" && FileCachePath(req.path) in s.store && IsDotFile(req.path) ==>
              x.reply == Sent(Response(404, map["x-cache" := "HIT"], ErrorPage))
    // a MISS fetches the request's own path once and does what the handler does
    ensures x.fetched != [] ==>
              x.fetched == [req.path] && HandlerResult(x.reply, x.state) == Handle(s, req, upstream, dirReady, write)
  {
    match SetupCacheMiddleware(s.cache, req)
    case Respond(r) => ServerExchange(Sent(r), s, [])
    case Next =>
      match ReadFileCache(s.store, req)
      case Respond(r) => ServerExchange(Sent(r), s, [])
      case Next =>
        var handled := Handle(s, req, upstream, dirReady, write);
        ServerExchange(handled.reply, handled.state, [req.path])
  }

  /**
   The read-through promise for a path with an extension: a first request
   that misses both caches and writes the file is a MISS with the origin's
   status and body; the same request again is a HIT with the same bytes,
   whatever the origin would say, and contacts no origin. When the final
   segment starts with `.`, both answers are `sendFile`'s 404 instead, yet
   the file is still written and the second request still stays local.
   */
  lemma FileMissThenHit(s: State, req: Request, status: int, entries: seq<Header>, body: seq<byte>,
                        upstream2: UpstreamOutcome, dirReady2: bool, write2: WriteOutcome)
    requires Extname(req.path) != ""
    requires req.path !in s.cache && FileCachePath(req.path) !in s.store
    ensures var first := Serve(s, req, Fetched(status, entries, body), true, Finished);
            && first.fetched == [req.path]
            && first.state.store == s.store[FileCachePath(req.path) := body]
            && (!IsDotFile(req.path) ==> first.reply == Sent(Response(status, WithCacheStatus(entries, "MISS"), Bytes(body))))
            && (IsDotFile(req.path) ==>
                  first.reply == Sent(Response(404, WithCacheStatus(entries, "MISS") - ErrorDroppedHeaders, ErrorPage)))
            && var second := Serve(first.state, req, upstream2, dirReady2, write2);
               && second.fetched == []
               && second.state == first.state
               && (!IsDotFile(req.path) ==> second.reply == Sent(Response(200, map["x-cache" := "HIT"], Bytes(body))))
               && (IsDotFile(req.path) ==> second.reply == Sent(Response(404, map["x-cache" := "HIT"], ErrorPage)))
  {
    FileCachePathKeepsFinalSegment(req.path);
  }

  /**
   The same promise for a buffered JSON or XML response: the second request
   is answered from the in-memory record with the stored content type.
   */
  lemma BufferedMissThenHit(s: State, req: Request, status: int, entries: seq<Header>, body: seq<byte>,
                            upstream2: UpstreamOutcome, dirReady2: bool, write2: WriteOutcome)
    requires req.path !in s.cache && Extname(req.path) == ""
    requires ContentType(entries).Some?
    requires !IsFileContentType(ContentType(entries).value) && IsBufferedContentType(ContentType(entries).value)
    ensures var first := Serve(s, req, Fetched(status, entries, body), true, Finished);
            && first.fetched == [req.path]
            && first.reply == Sent(Response(status, WithCacheStatus(entries, "MISS"), Bytes(body)))
            && var second := Serve(first.state, req, upstream2, dirReady2, write2);
               && second.fetched == []
               && second.state == first.state
               && second.reply == Sent(Response(200, map["x-cache" := "HIT", "content-type" := ContentType(entries).value],
                                                Bytes(body)))
  {
  }

  /**
   An extensionless `text/`, `image/` or `audio` response is written to the
   file store, yet no later request for that path is served from it: with
   the in-memory record still missing it, every such request goes upstream.
   */
  lemma ExtensionlessFileEntryNeverServed(s: State, req: Request, status: int, entries: seq<Header>, body: seq<byte>,
                                          upstream2: UpstreamOutcome, dirReady2: bool, write2: WriteOutcome)
    requires req.path !in s.cache && Extname(req.path) == ""
    requires ContentType(entries).Some? && IsFileContentType(ContentType(entries).value)
    ensures var first := Serve(s, req, Fetched(status, entries, body), true, Finished);
            && FileCachePath(req.path) in first.state.store
            && first.state.store[FileCachePath(req.path)] == body
            && Serve(first.state, req, upstream2, dirReady2, write2).fetched == [req.path]
  {
  }

  /**
   A write that fails after flushing part of the body answers 500, but the
   partial file stays under the probed key, so the next request for the same
   extensioned path is a HIT serving that prefix (or `sendFile`'s 404 for a
   dot file).
   */
  lemma FailedWriteLeavesServedPrefix(s: State, req: Request, status: int, entries: seq<Header>, body: seq<byte>,
                                      flushed: nat, upstream2: UpstreamOutcome, dirReady2: bool, write2: WriteOutcome)
    requires Extname(req.path) != ""
    requires req.path !in s.cache && FileCachePath(req.path) !in s.store
    ensures var first := Serve(s, req, Fetched(status, entries, body), true, WriteError(Some(flushed)));
            && first.reply == Sent(Response(500, map[], Text(WriteFailedText)))
            && var second := Serve(first.state, req, upstream2, dirReady2, write2);
               && second.fetched == []
               && (!IsDotFile(req.path) ==>
                     second.reply == Sent(Response(200, map["x-cache" := "HIT"], Bytes(body[..Min(flushed, |body|)]))))
               && (IsDotFile(req.path) ==> second.reply == Sent(Response(404, map["x-cache" := "HIT"], ErrorPage)))
  {
  }
}

=== FILE: storage.dfy ===
/**
 The file store and the in-memory cache. The cache directory is a map from
 a joined file path to the bytes of that file; `mkdir` and the piped write
 stream collapse into one outcome each.
 */
module Storage {
  import opened Wrappers
  import opened Http
  import opened Paths

  /** Files under the cache directory, keyed by their joined path. */
  type Store = map<string, seq<byte>>

  /** `CacheData` of the in-memory cache: the upstream content type and the buffered body. */
  datatype CacheData = CacheData(contentType: string, data: seq<byte>)

  /** `CacheRecord`: the in-memory cache keyed by `req.path`. */
  type CacheRecord = map<string, CacheData>

  /**
   How a `createWriteStream` fed by `pipe` ended: `finish`, or `error` after
   the file was never created (`None`) or after its first `n` bytes were
   flushed (`Some(n)`). A failed write leaves that partial file in place.
   */
  datatype WriteOutcome = Finished | WriteError(flushed: Option<nat>)

  /** `s'` agrees with `s` on every key except `key`. */
  ghost predicate AgreesExcept(s: Store, s': Store, key: string) {
    && (forall k :: k != key ==> (k in s <==> k in s'))
    && (forall k :: k in s && k != key ==> s'[k] == s[k])
  }

  function Min(a: int, b: int): int {
    if a <= b then a else b
  }

  /** The store after piping `body` into a fresh write stream for `key`. */
  function ApplyWrite(s: Store, key: string, body: seq<byte>, w: WriteOutcome): (s': Store)
    ensures AgreesExcept(s, s', key)
    ensures w.Finished? ==> key in s' && s'[key] == body
    ensures w == WriteError(None) ==> s' == s
    ensures w.WriteError? && w.flushed.Some? ==>
              key in s' && s'[key] == body[..Min(w.flushed.value, |body|)] && s'[key] <= body
  {
    match w
    case Finished => s[key := body]
    case WriteError(None) => s
    case WriteError(Some(n)) => s[key := body[..Min(n, |body|)]]
  }

  /** The response headers Express's final handler drops before rendering an error page. */
  const ErrorDroppedHeaders: set<string> := {"content-encoding", "content-language", "content-range"}

  /** The final handler keeps a lone `X-Cache` header set before the error. */
  lemma CacheStatusSurvivesErrorPage(status: string)
    ensures map["x-cache" := status] - ErrorDroppedHeaders == map["x-cache" := status]
  {
  }

  /**
   `res.status(status).sendFile(path)` once `headers` are set, for a file in
   the store. Under Express's default options `send` ignores a file whose
   final segment starts with `.`: the error goes to `next`, and the final
   handler answers 404 with its error page, keeping the headers already set
   apart from the content ones it drops.
   */
  function SendFile(store: Store, path: string, status: int, headers: HeaderMap): (r: Response)
    requires path in store
    ensures r.body.Bytes? <==> !IsDotFile(path)
    ensures !IsDotFile(path) ==> r.status == status && r.headers == headers && r.body.data == store[path]
    ensures IsDotFile(path) ==>
              && r.status == 404 && r.body == ErrorPage
              && r.headers.Keys == headers.Keys - ErrorDroppedHeaders
              && forall k :: k in r.headers ==> r.headers[k] == headers[k]
  {
    if IsDotFile(path) then Response(404, headers - ErrorDroppedHeaders, ErrorPage)
    else Response(status, headers, Bytes(store[path]))
  }

  /**
   Whichever way `sendFile` ends, an `X-Cache` header set before it is on
   the response with its value: the final handler's 404 does not drop it.
   */
  lemma CacheStatusSurvivesSendFile(store: Store, path: string, status: int, headers: HeaderMap)
    requires path in store && "x-cache" in headers
    ensures "x-cache" in SendFile(store, path, status, headers).headers
    ensures SendFile(store, path, status, headers).headers["x-cache"] == headers["x-cache"]
  {
  }
}

=== FILE: string_utils.dfy ===
/**
 `isIntegerString` of `src/utils/string.ts`: three numeric-parse guards and
 the regular expression `/^([-])?\d+$/`. The expression literal is created
 afresh on every call, so the `/g` flag leaves no `lastIndex` behind and the
 check is a pure function of its argument.
 */
module StringUtils {

  predicate IsDigit(c: char) {
    '0' <= c <= '9'
  }

  predicate AllDigits(s: string) {
    forall i :: 0 <= i < |s| ==> IsDigit(s[i])
  }

  /** `/^([-])?\d+$/`: an optional single `-`, then one or more ASCII digits, and nothing else. */
  predicate MatchesIntegerPattern(s: string) {
    || (|s| >= 1 && AllDigits(s))
    || (|s| >= 2 && s[0] == '-' && AllDigits(s[1..]))
  }

  /** The white space and line terminators `parseInt` and `parseFloat` skip before a number. */
  predicate IsJsWhiteSpace(c: char) {
    || c == '\t' || c == '\n' || c == '\U{B}' || c == '\U{C}' || c == '\r' || c == ' '
    || c == '\U{A0}' || c == '\U{1680}' || '\U{2000}' <= c <= '\U{200A}'
    || c == '\U{2028}' || c == '\U{2029}' || c == '\U{202F}' || c == '\U{205F}'
    || c == '\U{3000}' || c == '\U{FEFF}'
  }

  function TrimStart(s: string): (r: string)
    ensures r == [] || !IsJsWhiteSpace(r[0])
    ensures |r| <= |s| && r == s[|s| - |r|..]
    ensures forall j :: 0 <= j < |s| - |r| ==> IsJsWhiteSpace(s[j])
  {
    if s != [] && IsJsWhiteSpace(s[0]) then TrimStart(s[1..]) else s
  }

  /** One leading `+` or `-` dropped. */
  function DropSign(s: string): string {
    if s != [] && (s[0] == '+' || s[0] == '-') then s[1..] else s
  }

  /** `Number.isNaN(Number.parseInt(s, 10))`: no decimal digit follows the white space and sign. */
  predicate ParseIntIsNaN(s: string) {
    var u := DropSign(TrimStart(s));
    !(u != [] && IsDigit(u[0]))
  }

  /**
   `Number.isNaN(Number.parseFloat(s))`: after the white space and sign there
   is neither `Infinity`, nor a digit, nor a `.` followed by a digit.
   */
  predicate ParseFloatIsNaN(s: string) {
    var u := DropSign(TrimStart(s));
    !("Infinity" <= u || (u != [] && IsDigit(u[0])) || (|u| >= 2 && u[0] == '.' && IsDigit(u[1])))
  }

  /**
   `isIntegerString(value)`. `typeof value === "string"` holds of every
   argument here, and `Number.isNaN` of a string is always false (it does not
   convert), so those two guards are left as the constant `true` they are.
   The parse guards never reject a string the expression accepts, so the
   answer is the expression alone.
   */
  function IsIntegerString(value: string): (b: bool)
    ensures b <==> MatchesIntegerPattern(value)
  {
    && !ParseIntIsNaN(value)
    && !ParseFloatIsNaN(value)
    && MatchesIntegerPattern(value)
  }

  /** Two forms the expression accepts. */
  lemma AcceptsIntegers()
    ensures IsIntegerString("42") && IsIntegerString("-7") && IsIntegerString("007")
  {
    assert MatchesIntegerPattern("42");
    assert "-7"[1..] == "7";
    assert MatchesIntegerPattern("-7");
    assert MatchesIntegerPattern("007");
  }

  /** The forms the expression turns away: empty, a lone or doubled sign, `+`, decimals, white space, exponents, hex. */
  lemma RejectsNonIntegers()
    ensures !IsIntegerString("") && !IsIntegerString("-") && !IsIntegerString("--1")
    ensures !IsIntegerString("1.5") && !IsIntegerString("+3") && !IsIntegerString(" 7")
    ensures !IsIntegerString("1e3") && !IsIntegerString("7\n") && !IsIntegerString("0x1F")
  {
    assert "-"[0] == '-';
    assert !MatchesIntegerPattern("") && !MatchesIntegerPattern("-");
    assert "--1"[1..][0] == '-';
    assert !MatchesIntegerPattern("--1");
    assert "1.5"[1] == '.';
    assert !MatchesIntegerPattern("1.5");
    assert "+3"[0] == '+';
    assert !MatchesIntegerPattern("+3");
    assert " 7"[0] == ' ';
    assert !MatchesIntegerPattern(" 7");
    assert "1e3"[1] == 'e';
    assert !MatchesIntegerPattern("1e3");
    assert "7\n"[1] == '\n';
    assert !MatchesIntegerPattern("7\n");
    assert "0x1F"[1] == 'x';
    assert !MatchesIntegerPattern("0x1F");
  }
}

=== FILE: upstream.dfy ===
/**
 The single upstream `GET` and the way both handlers turn its failure into
 a client status.
 */
module Upstream {
  import opened Wrappers
  import opened Http

  /**
   What the `catch` block sees: whether the value is an `AxiosError`, the
   status of `e.response` if there is one, and whether `e.request` is set.
   */
  datatype UpstreamError = UpstreamError(isAxiosError: bool, response: Option<int>, requestMade: bool)

  /** The outcome of `axiosInstance.get(req.path, { responseType: "stream" })`. */
  datatype UpstreamOutcome =
    | Fetched(status: int, headers: seq<Header>, body: seq<byte>)
    | Failed(error: UpstreamError)

  /**
   The reply axios settles on. Its Node adapter follows every 3xx reply that
   carries a non-empty `location` header, since neither handler sets `maxRedirects`,
   so this is the last reply of that chain, or the lack of any reply.
   */
  datatype OriginReply = Replied(status: int, headers: seq<Header>, body: seq<byte>) | NoReply

  /**
   A reply the Node adapter does not settle on: a 3xx with a non-empty
   `location` header, which it follows. The entries come from a header
   object, so there is at most one `location`.
   */
  predicate IsFollowedRedirect(status: int, headers: seq<Header>) {
    300 <= status < 400 && exists i :: 0 <= i < |headers| && headers[i].name == "location" && headers[i].value != ""
  }

  /**
   The promise axios settles for the last origin reply under its default
   `validateStatus`: 2xx resolves, any other status rejects with an
   `AxiosError` carrying the response, and no reply at all rejects with an
   `AxiosError` carrying only the request.
   */
  function AxiosGet(o: OriginReply): (u: UpstreamOutcome)
    requires o.Replied? ==> !IsFollowedRedirect(o.status, o.headers)
    ensures u.Fetched? <==> o.Replied? && 200 <= o.status < 300
    ensures u.Fetched? ==> u.status == o.status && u.headers == o.headers && u.body == o.body
    ensures o.Replied? && !(200 <= o.status < 300) ==> u == Failed(UpstreamError(true, Some(o.status), true))
    ensures o.NoReply? ==> u == Failed(UpstreamError(true, None, true))
  {
    match o
    case Replied(status, headers, body) =>
      if 200 <= status < 300 then Fetched(status, headers, body)
      else Failed(UpstreamError(true, Some(status), true))
    case NoReply => Failed(UpstreamError(true, None, true))
  }

  /**
   The status the client gets for a failed upstream request: the origin's
   own status when axios received a response, 502 when the request went out
   but nothing came back, 500 otherwise.
   */
  function FailureStatus(e: UpstreamError): (code: int)
    ensures e.isAxiosError && e.response.Some? ==> code == e.response.value
    ensures e.isAxiosError && e.response.None? && e.requestMade ==> code == 502
    ensures !e.isAxiosError || (e.response.None? && !e.requestMade) ==> code == 500
  {
    if e.isAxiosError && e.response.Some? then e.response.value
    else if e.isAxiosError && e.requestMade then 502
    else 500
  }

  /** `res.sendStatus(...)` for a failed upstream request. */
  function FailureResponse(e: UpstreamError): Response {
    SendStatus(FailureStatus(e))
  }

  /**
   `upstreamResponse.headers["content-type"]`: the value of the last entry
   named exactly `content-type` (Node delivers header names lower-cased).
   */
  function ContentType(headers: seq<Header>): (ct: Option<string>)
    ensures ct.None? <==> forall i :: 0 <= i < |headers| ==> headers[i].name != "content-type"
    ensures ct.Some? ==> exists i :: 0 <= i < |headers| && headers[i] == Header("content-type", ct.value)
                                   && forall j :: i < j < |headers| ==> headers[j].name != "content-type"
  {
    if headers == [] then None
    else if headers[|headers| - 1].name == "content-type" then Some(headers[|headers| - 1].value)
    else
      var init := headers[..|headers| - 1];
      var ct := ContentType(init);
      assert forall i :: 0 <= i < |init| ==> init[i] == headers[i];
      ct
  }
}

=== FILE: wrappers.dfy ===
/** Optional values: a JavaScript `undefined`/`null` or a thrown-away result. */
module Wrappers {

  datatype Option<+T> = None | Some(value: T)
}
